=== FILE: README.md ===
# kiwi yum package manager, modelled in Dafny

This project models `PackageManagerYum` of kiwi, the image builder. It is
the yum backend that collects install, collection, exclusion and delete
requests and turns them into yum and rpm command lines, in two phases:

- the bootstrap phase, run on the host with `--installroot`;
- the image phase, run through `chroot` inside the new root.

The model has five modules:

- `Tokens` (tokens.dfy): the list operations the source relies on (`in`
  and `list.remove`, with `IndexOf` giving the first index of a value, which
  is the element `list.remove` drops) and the quoting of collection names. It also
  holds two ways of reading a command back: splitting it at `&&`, and taking
  the operands after a verb.
- `CustomArgs` (custom_args.dfy): the requires-policy toggles and the
  translation of exclusions into `--exclude=<name>` flags, as functions on
  the argument list, with their lemmas.
- `Commands` (commands.dfy): binary selection, the command builders, and
  the deletion filter. The filter is a loop (`DeleteItems`) proved against
  the function `InstalledOf`.
- `Matchers` (matchers.dfy): the two transaction-output matchers.
- `PackageManager` (yum.dfy): the class `PackageManagerYum`. Its fields are
  the three request lists and the custom arguments, and its methods change
  them in place as the source does. Each processing method returns the
  command token list it would hand to the process runner, or the error it
  would raise.

The outside world comes in as parameters:

- `found(path)` says whether `yum-deprecated` is an executable on search
  path `path`. `None` is the process's own PATH.
- `runs(cmd)` says whether `Command.run(cmd)` succeeds. It covers
  `makecache`, `rpm --rebuilddb` and each `rpm -q` query.
- `moveToRoot` stands for `root_bind.move_to_root`.

Two client methods use only the class's method contracts:

- `PackageManager.ExclusionOutlivesTheQueue` shows that an exclusion
  processed by one image install is still in the next, unrelated image
  install's command.
- `PackageManager.BootstrapCommandSplitsAtChain` shows that the quoting
  invariant `Valid` lets the bootstrap command be read back at `&&`.

Two details of the code the model keeps:

- The matchers call `re.match('.*Installing : ' + re.escape(name) + '.*', line)`
  (and the same with `Removing: `). `re.match` anchors the pattern at the
  start of the string, but the leading `.*` lets the marker start anywhere
  before the first newline, because `.` does not match a newline.
- `_get_yum_binary_name` tests `if root`, so an empty root string also
  uses the process's PATH (`SearchPath`).

## Model

| member | source | states |
|---|---|---|
| `Tokens.Quote` | kiwi/package_manager/yum.py:67-73 | a collection token is the name in double quotes: it is quoted, two characters longer, and unquoting gives the name back |
| `Tokens.QuoteAll` | kiwi/package_manager/yum.py:67-73 | quoting a list of names gives one quoted token per name, and unquoting them gives the names back |
| `Tokens.RemoveFirst` | kiwi/package_manager/yum.py:228 | removing a present value shortens the list by one, as `list.remove` does; the function is total and returns the list unchanged on an absent value, where Python would raise `ValueError`, a case the `in` test at yum.py:227 never lets reach it |
| `Tokens.RemoveFirstAt` | kiwi/package_manager/yum.py:227-228 | `list.remove` drops exactly the element at the first index of the value, and nothing else |
| `Tokens.RemoveFirstCount` | kiwi/package_manager/yum.py:227-228 | removal takes away one copy of the value when it is present and leaves the multiset alone otherwise |
| `Tokens.RemoveFirstKeepsOthers` | kiwi/package_manager/yum.py:227-228 | removal keeps every other element in its order |
| `CustomArgs.OnlyRequired` | kiwi/package_manager/yum.py:216-221 | afterwards the strong-requires flag is present; its count is unchanged if it was present and 1 if not; the old arguments are a prefix of the new; other arguments keep their order |
| `CustomArgs.PlusRecommended` | kiwi/package_manager/yum.py:223-228 | one flag fewer if there was one, otherwise nothing changes; the length drops by one exactly when the flag was present; the copy removed is the first one; other arguments keep their order |
| `CustomArgs.OnlyRequiredIdempotent` | kiwi/package_manager/yum.py:220-221 | asking for strong requires twice gives the same arguments as asking once |
| `CustomArgs.OnlyRequiredLeavesOneFlag` | kiwi/package_manager/yum.py:220-221 | starting from zero or one flag, exactly one flag is left |
| `CustomArgs.PlusRecommendedClearsFlag` | kiwi/package_manager/yum.py:227-228 | starting from zero or one flag, none is left, and a second call changes nothing |
| `CustomArgs.TogglesRoundTrip` | kiwi/package_manager/yum.py:216-228 | with no flag to start with, strong then weak gives back the original arguments |
| `CustomArgs.WeakThenStrong` | kiwi/package_manager/yum.py:216-228 | weak then strong, from at most one flag, leaves exactly one flag and every other argument in its order |
| `CustomArgs.ExcludeFlags` | kiwi/package_manager/yum.py:148-149 | one flag per exclusion, and the k-th flag is `--exclude=` followed by the k-th exclusion |
| `CustomArgs.ExcludeFlagsAppend` | kiwi/package_manager/yum.py:148-149 | translating two lists of exclusions one after the other is the same as translating their concatenation |
| `CustomArgs.ExcludedNamesOfFlags` | kiwi/package_manager/yum.py:148-149 | reading the names back out of the appended flags gives the exclusions, in request order |
| `CustomArgs.ExcludeFlagsNotStrong` | kiwi/package_manager/yum.py:148-149 | no exclusion flag is the strong-requires flag |
| `CustomArgs.ExclusionsAccumulate` | kiwi/package_manager/yum.py:143-149 | appending the flags adds exactly the requested names to the exclusions carried by the arguments and leaves the policy flag count alone |
| `Commands.SearchPath` | kiwi/package_manager/yum.py:102-104 | the search path is `<root>/usr/bin` exactly when a non-empty root is given; otherwise the process's PATH is used |
| `Commands.YumBinaryName` | kiwi/package_manager/yum.py:93-112 | the binary is `yum` or `yum-deprecated`, and it is `yum-deprecated` exactly when the lookup on the search path finds it |
| `Commands.MakecacheCommand` | kiwi/package_manager/yum.py:119-121 | the cache refresh is the binary, then the yum arguments, then `makecache` |
| `Commands.RebuildDbCommand` | kiwi/package_manager/yum.py:150-152 | the database rebuild is `chroot <root> rpm --rebuilddb`, and it is never one of the `rpm -q` queries |
| `Commands.QueryCommand` | kiwi/package_manager/yum.py:181 | the installed-check is `chroot <root> rpm -q` followed by the one requested name |
| `Commands.BootstrapPrefix` | kiwi/package_manager/yum.py:122-132 | a bootstrap install or groupinstall step starts with the binary, then the yum arguments, then `--installroot <root>`, then the custom arguments, and holds no other token |
| `Commands.ChrootPrefix` | kiwi/package_manager/yum.py:156-166 | a call inside the root starts with `chroot <root> <binary>`, then the root-relative yum arguments, then the custom arguments, and holds no other token |
| `Commands.InstallCommand` | kiwi/package_manager/yum.py:122-132 | the install command is the install step joined with `&&` to the groupinstall step, the latter present only when collections were requested |
| `Commands.UpdateCommand` | kiwi/package_manager/yum.py:207-212 | the update command is the chroot prefix followed by `upgrade` alone; when no prefix token is `install`, no `install` appears |
| `Commands.DeleteCommand` | kiwi/package_manager/yum.py:190-195 | the delete command is `chroot <root> rpm -e --nodeps --allmatches --noscripts` followed by exactly the delete items (read back after `--noscripts` when the root is not itself that flag) |
| `Commands.InstallCommandSteps` | kiwi/package_manager/yum.py:122-132 | provided `&&` occurs neither in the prefix nor among the packages and every collection is quoted: split at `&&`, the install command is the install step plus, exactly when collections were requested, the groupinstall step; `&&` occurs if and only if collections were requested |
| `Commands.InstallStepsOperands` | kiwi/package_manager/yum.py:122-166 | provided neither `install` nor `groupinstall` is in the prefix: the operands after `install` are the package requests and the operands after `groupinstall` are the quoted collection requests, both unchanged and in order |
| `Commands.GroupinstallNames` | kiwi/package_manager/yum.py:126-131 | provided `groupinstall` is not in the prefix: unquoting the operands of the groupinstall step, which `request_collection` stored quoted, gives back the requested collection names |
| `Commands.InstalledOf` | kiwi/package_manager/yum.py:178-189 | the delete items are a subsequence of the requests in request order, every one of them has a succeeding `rpm -q`, and they are empty if and only if no request's query succeeds |
| `Commands.InstalledOfAppend` | kiwi/package_manager/yum.py:178-185 | filtering two request lists one after the other is the same as filtering their concatenation |
| `Commands.InstalledOfCounts` | kiwi/package_manager/yum.py:178-185 | every request whose `rpm -q` succeeds is kept as often as it was requested, and every other request is dropped |
| `Commands.InstalledOfMembers` | kiwi/package_manager/yum.py:178-185 | a name is a delete item if and only if it was requested and its query succeeds |
| `Commands.DeleteItems` | kiwi/package_manager/yum.py:178-185 | the loop collects exactly `InstalledOf` of the requests |
| `Matchers.MatchPackageInstalled` | kiwi/package_manager/yum.py:230-244 | the match holds if and only if `Installing : ` followed by the name starts at some position of the output with no newline before it |
| `Matchers.MatchPackageDeleted` | kiwi/package_manager/yum.py:246-255 | the match holds if and only if `Removing: ` followed by the name starts at some position of the output with no newline before it |
| `Matchers.MatchesWithinFirstLineSpec` | kiwi/package_manager/yum.py:242-244 | the `.*`-wrapped match holds if and only if the literal pattern starts at some position with no newline before it |
| `Matchers.SingleLineMatch` | kiwi/package_manager/yum.py:242-255 | on a line without a newline, either matcher holds if and only if its marker followed by the name occurs anywhere in the line |
| `Matchers.MatchesPrefixOfPattern` | kiwi/package_manager/yum.py:234-237 | a pattern that matches still matches when it is cut short |
| `Matchers.LongerNameMatches` | kiwi/package_manager/yum.py:234-237 | the acknowledged false positive: a line that matches a longer name also matches every prefix of that name, for both matchers |
| `Matchers.MatchAfterLeadingText` | kiwi/package_manager/yum.py:242-244 | any newline-free text may come before the marker and the match still holds |
| `Matchers.FoobarLineMatchesFoo` | kiwi/package_manager/yum.py:234-244 | `foo` matches both `Installing : foo-1.0` and `Installing : foobar-1.0` |
| `PackageManager.PackageManagerYum.constructor` | kiwi/package_manager/yum.py:35-57 | the queue starts empty; the custom arguments and the yum arguments are the given ones |
| `PackageManager.PackageManagerYum.RequestPackage` | kiwi/package_manager/yum.py:59-65 | the name is appended unchanged to the package requests and nothing else changes |
| `PackageManager.PackageManagerYum.RequestCollection` | kiwi/package_manager/yum.py:67-73 | the quoted name is appended to the collection requests and nothing else changes |
| `PackageManager.PackageManagerYum.RequestPackageExclusion` | kiwi/package_manager/yum.py:85-91 | the name is appended unchanged to the exclusion requests and nothing else changes |
| `PackageManager.PackageManagerYum.CleanupRequests` | kiwi/package_manager/yum.py:133 | all three request lists are empty and the custom arguments are untouched |
| `PackageManager.PackageManagerYum.ProcessInstallRequestsBootstrap` | kiwi/package_manager/yum.py:114-136 | a failed makecache raises with the queue intact; otherwise the command is the bootstrap install command of the old queue and the queue is cleared; the custom arguments never change |
| `PackageManager.PackageManagerYum.ProcessInstallRequests` | kiwi/package_manager/yum.py:138-170 | the exclusion flags are appended to the custom arguments in every case; a failed rebuilddb raises with the queue intact; otherwise the command is the chroot install command of the old queue, built with the extended arguments, and the queue is cleared; the exclusion flags never add a strong-requires flag |
| `PackageManager.PackageManagerYum.ProcessDeleteRequests` | kiwi/package_manager/yum.py:172-197 | with no installed request it raises the none-installed error and changes nothing; otherwise the queue is cleared and the command is `chroot <root> rpm -e --nodeps --allmatches --noscripts` plus the installed requests |
| `PackageManager.PackageManagerYum.Update` | kiwi/package_manager/yum.py:199-214 | the command is the chroot upgrade command with the current custom arguments; no state changes |
| `PackageManager.PackageManagerYum.ProcessOnlyRequired` | kiwi/package_manager/yum.py:216-221 | the custom arguments become `OnlyRequired` of the old ones and keep at most one strong-requires flag if they had at most one; the queue is untouched |
| `PackageManager.PackageManagerYum.ProcessPlusRecommended` | kiwi/package_manager/yum.py:223-228 | the custom arguments become `PlusRecommended` of the old ones and keep at most one strong-requires flag if they had at most one; the queue is untouched |
| `PackageManager.BootstrapInstall` | kiwi/package_manager/yum.py:122-132 | the token-by-token assembly of the bootstrap command yields exactly `InstallCommand` over `BootstrapPrefix` |
| `PackageManager.ChrootInstall` | kiwi/package_manager/yum.py:156-166 | the token-by-token assembly of the image command yields exactly `InstallCommand` over `ChrootPrefix` |
| `PackageManager.BootstrapCommandSplitsAtChain` | kiwi/package_manager/yum.py:114-132 | on a valid instance whose packages and arguments hold no `&&`, a successful bootstrap command splits at `&&` into its install step and, exactly when collections were queued, its groupinstall step: the quoting `request_collection` applies keeps a collection from being read as `&&` |
| `PackageManager.ExclusionsReachChrootCommand` | kiwi/package_manager/yum.py:143-166 | every processed exclusion appears as an `--exclude=` flag in the chroot install command |

## Left out

- Process execution (`Command.run`, `Command.call`). The model returns the
  token list instead of running it. The exit status or output of the final
  call is not modelled.
- Joining the tokens with spaces and running the string through `bash -c`.
  This is shell behaviour; the model reads the `&&` chain back as token
  segments instead.
- `Path.which` is replaced by the `found` oracle, and `os.sep` is taken to
  be `/`.
- `root_bind.move_to_root` is replaced by the `moveToRoot` parameter.
  `repository.runtime_config()` is replaced by the constructor's
  `yumArgs`. `command_env` is left out; it is only passed on to process
  execution.
- When the caller passes a non-empty `custom_args` list, the source shares
  it by reference, so the caller sees later changes to it (`None` or `[]`
  is replaced by a fresh list). The model copies it by value.
- The Python regex engine. The matchers are modelled as literal search,
  which is what `re.escape` gives. The match object is a boolean.
- `database_consistent`: it only wraps one external command.
- `request_product` and `dump_reload_package_database`: they do nothing.
- The `force` parameter of `process_delete_requests`: the source never
  reads it.
- The base class `PackageManagerBase` is not part of this model.
  `cleanup_requests` is taken to empty the three request lists.

=== FILE: commands.dfy ===
/** Binary selection, the command lines the package manager assembles, and
    the deletion filter (kiwi/package_manager/yum.py:93-214). Every command
    is a sequence of tokens as the source builds it, before it is joined
    into one string for `bash -c` or handed to the process runner. */
module Commands {
  import opened Tokens

  datatype Error =
    | CommandFailed(command: seq<string>)   // a pre-step run through Command.run failed
    | RequestError(message: string)        // KiwiRequestError

  datatype Result<T> = Ok(value: T) | Err(error: Error)

  const Yum: string := "yum"
  const YumDeprecated: string := "yum-deprecated"
  const Chain: string := "&&"
  const NoneInstalled: string := "None of the requested packages to delete are installed"
  /** rpm flags of the tolerant removal: ignore dependencies, every match, no scripts. */
  const DeleteOptions: seq<string> := ["--nodeps", "--allmatches", "--noscripts"]

  /** The PATH searched for `yum-deprecated`: `<root>/usr/bin` when a
      non-empty root is given, the process's own PATH (`None`) otherwise. */
  function SearchPath(root: Option<string>): (path: Option<string>)
    ensures path.Some? <==> root.Some? && root.value != ""
    ensures path.Some? ==> root.value + "/" <= path.value && path.value[|root.value|..] == "/usr/bin"
  {
    if root.Some? && root.value != "" then Some(root.value + "/usr/bin") else None
  }

  /** `_get_yum_binary_name`; `found(p)` tells whether an executable
      `yum-deprecated` is on search path `p`. */
  function YumBinaryName(root: Option<string>, found: Option<string> -> bool): (name: string)
    ensures name == Yum || name == YumDeprecated
    ensures name == YumDeprecated <==> found(SearchPath(root))
  {
    if found(SearchPath(root)) then YumDeprecated else Yum
  }

  /** The cache refresh run before a bootstrap install. */
  function MakecacheCommand(yum: string, yumArgs: seq<string>): (cmd: seq<string>)
    ensures |cmd| == |yumArgs| + 2
    ensures cmd[0] == yum && cmd[1..|cmd| - 1] == yumArgs && cmd[|cmd| - 1] == "makecache"
  {
    var cmd := [yum] + yumArgs + ["makecache"];
    assert cmd[1..|cmd| - 1] == yumArgs;
    cmd
  }

  /** The rpm database rebuild run inside the root before an image install;
      it is never one of the package queries. */
  function RebuildDbCommand(rootDir: string): (cmd: seq<string>)
    ensures |cmd| == 4 && cmd[..2] == ["chroot", rootDir] && cmd[2..] == ["rpm", "--rebuilddb"]
    ensures forall r, name :: cmd != QueryCommand(r, name)
  {
    ["chroot", rootDir, "rpm", "--rebuilddb"]
  }

  /** The `rpm -q` query that decides whether a delete request is installed;
      distinct names give distinct queries. */
  function QueryCommand(rootDir: string, name: string): (cmd: seq<string>)
    ensures |cmd| == 5 && cmd[..4] == ["chroot", rootDir, "rpm", "-q"] && cmd[4] == name
  {
    ["chroot", rootDir, "rpm", "-q", name]
  }

  /** What every bootstrap yum call starts with, up to the verb. */
  function BootstrapPrefix(yum: string, yumArgs: seq<string>, rootDir: string, customArgs: seq<string>): (p: seq<string>)
    ensures |p| == |yumArgs| + |customArgs| + 3
    ensures p[0] == yum && p[|yumArgs| + 1..|yumArgs| + 3] == ["--installroot", rootDir]
    ensures p[1..|yumArgs| + 1] == yumArgs && p[|yumArgs| + 3..] == customArgs
    ensures forall t :: t in p <==> t == yum || t in yumArgs || t == "--installroot" || t == rootDir || t in customArgs
  {
    var p := [yum] + yumArgs + ["--installroot", rootDir] + customArgs;
    assert p == [yum] + (yumArgs + (["--installroot", rootDir] + customArgs));
    p
  }

  /** What every yum call inside the image root starts with, up to the verb. */
  function ChrootPrefix(rootDir: string, yum: string, chrootYumArgs: seq<string>, customArgs: seq<string>): (p: seq<string>)
    ensures |p| == |chrootYumArgs| + |customArgs| + 3
    ensures p[..3] == ["chroot", rootDir, yum]
    ensures p[3..|chrootYumArgs| + 3] == chrootYumArgs && p[|chrootYumArgs| + 3..] == customArgs
    ensures forall t :: t in p <==> t == "chroot" || t == rootDir || t == yum || t in chrootYumArgs || t in customArgs
  {
    var p := ["chroot", rootDir, yum] + chrootYumArgs + customArgs;
    assert p == ["chroot", rootDir, yum] + (chrootYumArgs + customArgs);
    p
  }

  /** The install command of either phase: install the packages, and when
      collections were requested chain a groupinstall of them with `&&`. */
  function InstallCommand(prefix: seq<string>, packages: seq<string>, collections: seq<string>): (cmd: seq<string>)
    ensures cmd == Join(InstallSteps(prefix, packages, collections), Chain)
  {
    var cmd := prefix + ["install"] + packages
      + (if collections == [] then [] else [Chain] + prefix + ["groupinstall"] + collections);
    assert collections != [] ==>
      Join(InstallSteps(prefix, packages, collections), Chain)
        == (prefix + ["install"] + packages) + [Chain] + (prefix + ["groupinstall"] + collections);
    cmd
  }

  function UpdateCommand(rootDir: string, yum: string, chrootYumArgs: seq<string>, customArgs: seq<string>): (cmd: seq<string>)
    ensures |cmd| == |chrootYumArgs| + |customArgs| + 4
    ensures cmd[|cmd| - 1] == "upgrade" && cmd[..|cmd| - 1] == ChrootPrefix(rootDir, yum, chrootYumArgs, customArgs)
    ensures "install" !in chrootYumArgs + customArgs && "install" != rootDir && "install" != yum ==> "install" !in cmd
  {
    var cmd := ChrootPrefix(rootDir, yum, chrootYumArgs, customArgs) + ["upgrade"];
    assert cmd[..|cmd| - 1] == ChrootPrefix(rootDir, yum, chrootYumArgs, customArgs);
    cmd
  }

  function DeleteCommand(rootDir: string, items: seq<string>): (cmd: seq<string>)
    ensures |cmd| == |items| + 7
    ensures cmd[..7] == ["chroot", rootDir, "rpm", "-e", "--nodeps", "--allmatches", "--noscripts"]
    ensures rootDir != "--noscripts" ==> ArgumentsAfter(cmd, "--noscripts") == Some(items)
  {
    var head := ["chroot", rootDir, "rpm", "-e", "--nodeps", "--allmatches"];
    var cmd := head + ["--noscripts"] + items;
    assert cmd == ["chroot", rootDir, "rpm", "-e"] + DeleteOptions + items;
    if rootDir != "--noscripts" then
      ArgumentsAfterMarker(head, "--noscripts", items);
      cmd
    else cmd
  }

  /** The shell commands an install command chains, in order. */
  function InstallSteps(prefix: seq<string>, packages: seq<string>, collections: seq<string>): (steps: seq<seq<string>>)
    ensures |steps| >= 1
  {
    [prefix + ["install"] + packages]
    + (if collections == [] then [] else [prefix + ["groupinstall"] + collections])
  }

  predicate AllQuoted(ts: seq<string>) {
    forall k :: 0 <= k < |ts| ==> IsQuoted(ts[k])
  }

  /** Read back at `&&`, the install command is the install step followed by
      the groupinstall step exactly when collections were requested. */
  lemma InstallCommandSteps(prefix: seq<string>, packages: seq<string>, collections: seq<string>)
    requires Chain !in prefix && Chain !in packages && AllQuoted(collections)
    ensures Split(InstallCommand(prefix, packages, collections), Chain) == InstallSteps(prefix, packages, collections)
    ensures Chain in InstallCommand(prefix, packages, collections) <==> collections != []
  {
    var steps := InstallSteps(prefix, packages, collections);
    var cmd := InstallCommand(prefix, packages, collections);
    assert Chain !in prefix + ["install"] + packages;
    if collections == [] {
      assert cmd == Join(steps, Chain);
    } else {
      assert forall k :: 0 <= k < |collections| ==> collections[k] != Chain by {
        forall k | 0 <= k < |collections| ensures collections[k] != Chain {
          assert IsQuoted(collections[k]);
        }
      }
      assert Chain !in prefix + ["groupinstall"] + collections;
      assert Join(steps, Chain) == steps[0] + [Chain] + steps[1];
      assert cmd == Join(steps, Chain);
    }
    SplitJoin(steps, Chain);
  }

  /** The packages and the quoted collections can be read back from the
      operands of the two steps. */
  lemma InstallStepsOperands(prefix: seq<string>, packages: seq<string>, collections: seq<string>)
    requires "install" !in prefix && "groupinstall" !in prefix
    ensures ArgumentsAfter(InstallSteps(prefix, packages, collections)[0], "install") == Some(packages)
    ensures collections != [] ==>
              ArgumentsAfter(InstallSteps(prefix, packages, collections)[1], "groupinstall") == Some(collections)
  {
    ArgumentsAfterMarker(prefix, "install", packages);
    ArgumentsAfterMarker(prefix, "groupinstall", collections);
  }

  /** Unquoting the operands of the groupinstall step gives back the
      collection names as they were requested. */
  lemma GroupinstallNames(prefix: seq<string>, packages: seq<string>, names: seq<string>)
    requires "groupinstall" !in prefix && names != []
    ensures var steps := InstallSteps(prefix, packages, QuoteAll(names));
            |steps| == 2 && ArgumentsAfter(steps[1], "groupinstall").Some?
            && AllQuoted(ArgumentsAfter(steps[1], "groupinstall").value)
            && UnquoteAll(ArgumentsAfter(steps[1], "groupinstall").value) == names
  {
    ArgumentsAfterMarker(prefix, "groupinstall", QuoteAll(names));
  }

  /** `delete_items`: the requested packages whose `rpm -q` succeeds, in
      request order. */
  function InstalledOf(rootDir: string, requests: seq<string>, runs: seq<string> -> bool): (items: seq<string>)
    ensures IsSubsequence(items, requests)
    ensures forall k :: 0 <= k < |items| ==> runs(QueryCommand(rootDir, items[k]))
    ensures items == [] <==> forall k :: 0 <= k < |requests| ==> !runs(QueryCommand(rootDir, requests[k]))
  {
    if requests == [] then []
    else
      var rest := InstalledOf(rootDir, requests[1..], runs);
      var installed := runs(QueryCommand(rootDir, requests[0]));
      var items := (if installed then [requests[0]] else []) + rest;
      assert forall k :: 1 <= k < |requests| ==> requests[k] == requests[1..][k - 1];
      assert installed ==> items[0] == requests[0] && items[1..] == rest;
      assert !installed ==> items == rest;
      items
  }

  lemma {:induction false} InstalledOfAppend(rootDir: string, a: seq<string>, b: seq<string>, runs: seq<string> -> bool)
    ensures InstalledOf(rootDir, a + b, runs) == InstalledOf(rootDir, a, runs) + InstalledOf(rootDir, b, runs)
  {
    if a == [] {
      assert a + b == b;
    } else {
      assert (a + b)[1..] == a[1..] + b;
      InstalledOfAppend(rootDir, a[1..], b, runs);
    }
  }

  /** Every request that is installed is kept, as often as it was
      requested; every other request is dropped. */
  lemma {:induction false} InstalledOfCounts(rootDir: string, requests: seq<string>, runs: seq<string> -> bool, x: string)
    ensures multiset(InstalledOf(rootDir, requests, runs))[x] ==
              if runs(QueryCommand(rootDir, x)) then multiset(requests)[x] else 0
  {
    if requests != [] {
      InstalledOfCounts(rootDir, requests[1..], runs, x);
      assert requests == [requests[0]] + requests[1..];
    }
  }

  lemma {:induction false} InstalledOfMembers(rootDir: string, requests: seq<string>, runs: seq<string> -> bool, x: string)
    ensures x in InstalledOf(rootDir, requests, runs) <==> x in requests && runs(QueryCommand(rootDir, x))
  {
    InstalledOfCounts(rootDir, requests, runs, x);
    assert x in InstalledOf(rootDir, requests, runs) <==> multiset(InstalledOf(rootDir, requests, runs))[x] > 0;
    assert x in requests <==> multiset(requests)[x] > 0;
  }

  /** The loop of `process_delete_requests` that collects `delete_items`. */
  method DeleteItems(rootDir: string, requests: seq<string>, runs: seq<string> -> bool) returns (items: seq<string>)
    ensures items == InstalledOf(rootDir, requests, runs)
  {
    items := [];
    var i := 0;
    while i < |requests|
      invariant 0 <= i <= |requests|
      invariant items == InstalledOf(rootDir, requests[..i], runs)
    {
      var item := requests[i];
      InstalledOfAppend(rootDir, requests[..i], [item], runs);
      assert requests[..i + 1] == requests[..i] + [item];
      if runs(QueryCommand(rootDir, item)) {
        items := items + [item];
      }
      i := i + 1;
    }
    assert requests[..i] == requests;
  }
}

=== FILE: custom_args.dfy ===
/** The custom yum arguments and the two ways the package manager changes
    them: the requires-policy toggles (kiwi/package_manager/yum.py:216-228)
    and the translation of exclusion requests into `--exclude=<name>` flags
    (kiwi/package_manager/yum.py:143-149). */
module CustomArgs {
  import opened Tokens

  /** The flag that makes yum install required packages only. */
  const StrongRequires: string := "--setopt=requires_policy=strong"

  /** Prefix of the flag yum uses to take a package out of the solver. */
  const ExcludePrefix: string := "--exclude="

  function Occurrences(args: seq<string>, t: string): nat {
    multiset(args)[t]
  }

  /** At most one strong-requires flag: the state both toggles keep. */
  predicate StrongAtMostOnce(args: seq<string>) {
    Occurrences(args, StrongRequires) <= 1
  }

  /** `process_only_required`: add the flag unless it is already present. */
  function OnlyRequired(args: seq<string>): (r: seq<string>)
    ensures StrongRequires in r
    ensures Occurrences(r, StrongRequires) ==
              if StrongRequires in args then Occurrences(args, StrongRequires) else 1
    ensures args <= r && |r| <= |args| + 1
    ensures Without(r, StrongRequires) == Without(args, StrongRequires)
  {
    if StrongRequires in args then args
    else
      WithoutAppend(args, [StrongRequires], StrongRequires);
      args + [StrongRequires]
  }

  /** `process_plus_recommended`: remove the first flag, if there is one. */
  function PlusRecommended(args: seq<string>): (r: seq<string>)
    ensures Occurrences(r, StrongRequires) ==
              if StrongRequires in args then Occurrences(args, StrongRequires) - 1 else 0
    ensures |r| == if StrongRequires in args then |args| - 1 else |args|
    ensures Without(r, StrongRequires) == Without(args, StrongRequires)
    ensures StrongRequires in args ==>
              r == args[..IndexOf(args, StrongRequires)] + args[IndexOf(args, StrongRequires) + 1..]
  {
    if StrongRequires in args then
      RemoveFirstAt(args, StrongRequires);
      RemoveFirstCount(args, StrongRequires);
      RemoveFirstKeepsOthers(args, StrongRequires);
      RemoveFirst(args, StrongRequires)
    else args
  }

  lemma OnlyRequiredIdempotent(args: seq<string>)
    ensures OnlyRequired(OnlyRequired(args)) == OnlyRequired(args)
  {
  }

  lemma OnlyRequiredLeavesOneFlag(args: seq<string>)
    requires StrongAtMostOnce(args)
    ensures Occurrences(OnlyRequired(args), StrongRequires) == 1
  {
  }

  lemma PlusRecommendedClearsFlag(args: seq<string>)
    requires StrongAtMostOnce(args)
    ensures StrongRequires !in PlusRecommended(args)
    ensures PlusRecommended(PlusRecommended(args)) == PlusRecommended(args)
  {
    assert Occurrences(PlusRecommended(args), StrongRequires) == 0;
  }

  /** Switching to strong requires and back restores the arguments exactly
      when the flag was absent to begin with. */
  lemma {:induction false} TogglesRoundTrip(args: seq<string>)
    requires StrongRequires !in args
    ensures PlusRecommended(OnlyRequired(args)) == args
  {
    RemoveFirstAppended(args, StrongRequires);
  }

  /** Switching back to strong requires after the weak policy leaves the
      flag exactly once and every other argument where it was. */
  lemma WeakThenStrong(args: seq<string>)
    requires StrongAtMostOnce(args)
    ensures Occurrences(OnlyRequired(PlusRecommended(args)), StrongRequires) == 1
    ensures Without(OnlyRequired(PlusRecommended(args)), StrongRequires) == Without(args, StrongRequires)
  {
    PlusRecommendedClearsFlag(args);
  }

  /** The flags `process_install_requests` appends, one per exclusion, in order. */
  function ExcludeFlags(names: seq<string>): (flags: seq<string>)
    ensures |flags| == |names|
    ensures forall k :: 0 <= k < |names| ==> flags[k] == ExcludePrefix + names[k]
  {
    if names == [] then []
    else
      var flags := [ExcludePrefix + names[0]] + ExcludeFlags(names[1..]);
      assert forall k :: 1 <= k < |names| ==> flags[k] == ExcludeFlags(names[1..])[k - 1];
      flags
  }

  /** The names excluded by the `--exclude=` flags among `args`: the inverse
      of `ExcludeFlags`. */
  function ExcludedNames(args: seq<string>): seq<string> {
    if args == [] then []
    else
      (if ExcludePrefix <= args[0] then [args[0][|ExcludePrefix|..]] else [])
      + ExcludedNames(args[1..])
  }

  lemma {:induction false} ExcludeFlagsAppend(a: seq<string>, b: seq<string>)
    ensures ExcludeFlags(a + b) == ExcludeFlags(a) + ExcludeFlags(b)
  {
    if a == [] {
      assert a + b == b;
    } else {
      assert (a + b)[1..] == a[1..] + b;
      ExcludeFlagsAppend(a[1..], b);
    }
  }

  lemma {:induction false} ExcludedNamesAppend(a: seq<string>, b: seq<string>)
    ensures ExcludedNames(a + b) == ExcludedNames(a) + ExcludedNames(b)
  {
    if a == [] {
      assert a + b == b;
    } else {
      assert (a + b)[1..] == a[1..] + b;
      ExcludedNamesAppend(a[1..], b);
    }
  }

  lemma {:induction false} ExcludedNamesOfFlags(names: seq<string>)
    ensures ExcludedNames(ExcludeFlags(names)) == names
  {
    if names != [] {
      var flag := ExcludePrefix + names[0];
      assert ExcludePrefix <= flag && flag[|ExcludePrefix|..] == names[0];
      ExcludedNamesOfFlags(names[1..]);
      assert ExcludeFlags(names)[1..] == ExcludeFlags(names[1..]);
    }
  }

  /** No exclusion flag is ever the strong-requires flag, so exclusions
      leave the policy state alone. */
  lemma {:induction false} ExcludeFlagsNotStrong(names: seq<string>)
    ensures StrongRequires !in ExcludeFlags(names)
    ensures Occurrences(ExcludeFlags(names), StrongRequires) == 0
  {
    if names != [] {
      assert (ExcludePrefix + names[0])[2] == 'e' != StrongRequires[2];
      ExcludeFlagsNotStrong(names[1..]);
    }
  }

  /** Appending the exclusion flags to the custom arguments adds exactly the
      requested names to the exclusions they carry and keeps the policy. */
  lemma ExclusionsAccumulate(args: seq<string>, names: seq<string>)
    ensures ExcludedNames(args + ExcludeFlags(names)) == ExcludedNames(args) + names
    ensures Occurrences(args + ExcludeFlags(names), StrongRequires) == Occurrences(args, StrongRequires)
  {
    ExcludedNamesAppend(args, ExcludeFlags(names));
    ExcludedNamesOfFlags(names);
    ExcludeFlagsNotStrong(names);
  }
}

=== FILE: matchers.dfy ===
/** The transaction-output matchers (kiwi/package_manager/yum.py:230-255).
    Both are `re.match('.*' + marker + re.escape(name) + '.*', line)`:
    `re.escape` makes the name literal, `re.match` anchors at the start of
    the string, and the leading `.*` (which does not cross a newline) lets the
    marker start anywhere on the first line. */
module Matchers {

  const InstallingMarker: string := "Installing : "
  const RemovingMarker: string := "Removing: "

  /** `re.match('.*' + escape(p) + '.*', s)`: `p` starts at some position
      of `s` reached without passing a newline. */
  function MatchesWithinFirstLine(p: string, s: string): bool
    decreases |s|
  {
    if p <= s then true
    else if s == [] || s[0] == '\n' then false
    else MatchesWithinFirstLine(p, s[1..])
  }

  /** `p` occurs somewhere in `s`. */
  ghost predicate Occurs(p: string, s: string) {
    exists i :: 0 <= i <= |s| && p <= s[i..]
  }

  /** `match_package_installed`: the installing marker followed by the
      name starts somewhere on the first line of the output. */
  function MatchPackageInstalled(packageName: string, output: string): (r: bool)
    ensures r <==> exists i :: 0 <= i <= |output| && '\n' !in output[..i]
                              && InstallingMarker + packageName <= output[i..]
  {
    MatchesWithinFirstLineSpec(InstallingMarker + packageName, output);
    MatchesWithinFirstLine(InstallingMarker + packageName, output)
  }

  /** `match_package_deleted`: the same with the removing marker. */
  function MatchPackageDeleted(packageName: string, output: string): (r: bool)
    ensures r <==> exists i :: 0 <= i <= |output| && '\n' !in output[..i]
                              && RemovingMarker + packageName <= output[i..]
  {
    MatchesWithinFirstLineSpec(RemovingMarker + packageName, output);
    MatchesWithinFirstLine(RemovingMarker + packageName, output)
  }

  /** The match holds exactly when the pattern starts at a position with no
      newline before it. */
  lemma {:induction false} MatchesWithinFirstLineSpec(p: string, s: string)
    ensures MatchesWithinFirstLine(p, s) <==> exists i :: 0 <= i <= |s| && '\n' !in s[..i] && p <= s[i..]
    decreases |s|
  {
    if p <= s {
      assert s[..0] == [] && s[0..] == s;
    } else if s == [] {
    } else if s[0] == '\n' {
      forall i | 0 < i <= |s| ensures '\n' in s[..i] {
        assert s[..i][0] == '\n';
      }
      assert s[0..] == s;
    } else {
      MatchesWithinFirstLineSpec(p, s[1..]);
      var t := s[1..];
      if MatchesWithinFirstLine(p, t) {
        var j :| 0 <= j <= |t| && '\n' !in t[..j] && p <= t[j..];
        assert s[..j + 1] == [s[0]] + t[..j];
        assert s[j + 1..] == t[j..];
      } else {
        forall i | 0 <= i <= |s| && '\n' !in s[..i] ensures !(p <= s[i..]) {
          if i > 0 {
            assert t[..i - 1] == s[1..i];
            assert s[..i] == [s[0]] + t[..i - 1];
            assert s[i..] == t[i - 1..];
          } else {
            assert s[0..] == s;
          }
        }
      }
    }
  }

  /** On a single line (the case the source is used for) the matcher is a
      plain substring test: the marker need not start the line. */
  lemma SingleLineMatch(packageName: string, line: string)
    requires '\n' !in line
    ensures MatchPackageInstalled(packageName, line) <==> Occurs(InstallingMarker + packageName, line)
    ensures MatchPackageDeleted(packageName, line) <==> Occurs(RemovingMarker + packageName, line)
  {
    MatchesWithinFirstLineSpec(InstallingMarker + packageName, line);
    MatchesWithinFirstLineSpec(RemovingMarker + packageName, line);
    forall i | 0 <= i <= |line| ensures '\n' !in line[..i] {
      assert forall k :: 0 <= k < i ==> line[..i][k] == line[k];
    }
  }

  /** A pattern that matches still matches when it is cut short. */
  lemma {:induction false} MatchesPrefixOfPattern(p: string, q: string, s: string)
    requires MatchesWithinFirstLine(p + q, s)
    ensures MatchesWithinFirstLine(p, s)
    decreases |s|
  {
    if !(p + q <= s) {
      MatchesPrefixOfPattern(p, q, s[1..]);
    } else {
      assert (p + q)[..|p|] == p;
      assert s[..|p|] == p;
    }
  }

  /** The acknowledged false positive: a line reporting a package whose name
      extends `packageName` also matches `packageName`. */
  lemma LongerNameMatches(packageName: string, suffix: string, output: string)
    ensures MatchPackageInstalled(packageName + suffix, output) ==> MatchPackageInstalled(packageName, output)
    ensures MatchPackageDeleted(packageName + suffix, output) ==> MatchPackageDeleted(packageName, output)
  {
    assert InstallingMarker + (packageName + suffix) == (InstallingMarker + packageName) + suffix;
    assert RemovingMarker + (packageName + suffix) == (RemovingMarker + packageName) + suffix;
    if MatchPackageInstalled(packageName + suffix, output) {
      MatchesPrefixOfPattern(InstallingMarker + packageName, suffix, output);
    }
    if MatchPackageDeleted(packageName + suffix, output) {
      MatchesPrefixOfPattern(RemovingMarker + packageName, suffix, output);
    }
  }

  /** Any text without a newline may precede the marker. */
  lemma {:induction false} MatchAfterLeadingText(lead: string, p: string, rest: string)
    requires '\n' !in lead
    ensures MatchesWithinFirstLine(p, lead + p + rest)
    decreases |lead|
  {
    if lead == [] {
      assert lead + p + rest == p + rest;
    } else {
      assert (lead + p + rest)[1..] == lead[1..] + p + rest;
      assert lead[0] in lead;
      MatchAfterLeadingText(lead[1..], p, rest);
    }
  }

  lemma FoobarLineMatchesFoo()
    ensures MatchPackageInstalled("foo", "Installing : foobar-1.0")
    ensures MatchPackageInstalled("foo", "Installing : foo-1.0")
  {
    var p := InstallingMarker + "foo";
    assert p == "Installing : foo";
    assert "Installing : foobar-1.0" == p + "bar-1.0";
    assert "Installing : foo-1.0" == p + "-1.0";
  }
}

=== FILE: tokens.dfy ===
/** Sequence utilities over command-line tokens: the list operations the
    package manager relies on (`in`, `list.remove`, and the first index of
    a value, which is the element `list.remove` drops), the
    quoting of collection names, and the inverse views (splitting a command
    at `&&`, reading the operands after a verb) that the command lemmas use. */
module Tokens {

  datatype Option<T> = None | Some(value: T)

  /** Position of the first occurrence of `x` in `s`: the element `list.remove` drops. */
  function IndexOf<T(==)>(s: seq<T>, x: T): (i: nat)
    requires x in s
    ensures i < |s| && s[i] == x && x !in s[..i]
  {
    if s[0] == x then 0
    else
      var j := IndexOf(s[1..], x);
      assert s[..j + 1] == [s[0]] + s[1..][..j];
      j + 1
  }

  lemma IndexOfAfter<T>(prefix: seq<T>, x: T, rest: seq<T>)
    requires x !in prefix
    ensures x in prefix + [x] + rest && IndexOf(prefix + [x] + rest, x) == |prefix|
  {
    var s := prefix + [x] + rest;
    assert s[|prefix|] == x;
    var i := IndexOf(s, x);
    assert forall j :: 0 <= j < |prefix| ==> s[j] == prefix[j];
    assert forall j :: |prefix| < j <= |s| ==> s[..j][|prefix|] == x;
  }

  lemma InMiddle<T>(a: seq<T>, b: seq<T>, c: seq<T>, k: nat)
    requires k < |b|
    ensures (a + b + c)[|a| + k] == b[k] && b[k] in a + b + c
  {
  }

  /** Python's `list.remove(x)`: drops the first occurrence of `x`. Unlike
      Python, which raises `ValueError` on an absent value, this is total and
      returns `s` unchanged; the package manager only calls it after an `in` test. */
  function RemoveFirst<T(==)>(s: seq<T>, x: T): (r: seq<T>)
    ensures x in s ==> |r| == |s| - 1
    ensures x !in s ==> r == s
  {
    if s == [] then []
    else if s[0] == x then s[1..]
    else [s[0]] + RemoveFirst(s[1..], x)
  }

  /** The elements of `s` other than `x`, in their order. */
  function Without(s: seq<string>, x: string): (r: seq<string>)
    ensures x !in r
    ensures forall y :: y in r <==> y in s && y != x
  {
    if s == [] then []
    else (if s[0] == x then [] else [s[0]]) + Without(s[1..], x)
  }

  lemma {:induction false} WithoutAppend(a: seq<string>, b: seq<string>, x: string)
    ensures Without(a + b, x) == Without(a, x) + Without(b, x)
  {
    if a == [] {
      assert a + b == b;
    } else {
      assert (a + b)[1..] == a[1..] + b;
      WithoutAppend(a[1..], b, x);
    }
  }

  lemma {:induction false} RemoveFirstAt<T>(s: seq<T>, x: T)
    requires x in s
    ensures RemoveFirst(s, x) == s[..IndexOf(s, x)] + s[IndexOf(s, x) + 1..]
  {
    if s[0] != x {
      RemoveFirstAt(s[1..], x);
      var j := IndexOf(s[1..], x);
      assert s[..j + 1] == [s[0]] + s[1..][..j];
      assert s[j + 2..] == s[1..][j + 1..];
    }
  }

  lemma {:induction false} RemoveFirstCount<T>(s: seq<T>, x: T)
    ensures multiset(RemoveFirst(s, x)) == if x in s then multiset(s) - multiset{x} else multiset(s)
  {
    if s != [] {
      assert s == [s[0]] + s[1..];
      if s[0] != x {
        RemoveFirstCount(s[1..], x);
      }
    }
  }

  lemma {:induction false} RemoveFirstKeepsOthers(s: seq<string>, x: string)
    ensures Without(RemoveFirst(s, x), x) == Without(s, x)
  {
    if s != [] && s[0] != x {
      RemoveFirstKeepsOthers(s[1..], x);
      WithoutAppend([s[0]], RemoveFirst(s[1..], x), x);
      assert ([s[0]] + RemoveFirst(s[1..], x))[1..] == RemoveFirst(s[1..], x);
    }
  }

  lemma {:induction false} RemoveFirstAppended<T>(s: seq<T>, x: T)
    requires x !in s
    ensures RemoveFirst(s + [x], x) == s
  {
    if s == [] {
      assert [] + [x] == [x];
    } else {
      assert (s + [x])[1..] == s[1..] + [x];
      RemoveFirstAppended(s[1..], x);
      assert s == [s[0]] + s[1..];
    }
  }

  /** A collection name wrapped in double quotes, as `request_collection` stores it. */
  function Quote(name: string): (q: string)
    ensures IsQuoted(q) && Unquote(q) == name
    ensures |q| == |name| + 2
  {
    var q := "\"" + name + "\"";
    assert q[1..|q| - 1] == name;
    q
  }

  predicate IsQuoted(t: string) {
    |t| >= 2 && t[0] == '"' && t[|t| - 1] == '"'
  }

  function Unquote(t: string): string
    requires IsQuoted(t)
  {
    t[1..|t| - 1]
  }

  function UnquoteAll(ts: seq<string>): (names: seq<string>)
    requires forall k :: 0 <= k < |ts| ==> IsQuoted(ts[k])
    ensures |names| == |ts|
    ensures forall k :: 0 <= k < |ts| ==> names[k] == Unquote(ts[k])
  {
    if ts == [] then [] else [Unquote(ts[0])] + UnquoteAll(ts[1..])
  }

  /** The collection tokens stored for a list of requested collection names. */
  function QuoteAll(names: seq<string>): (ts: seq<string>)
    ensures |ts| == |names|
    ensures forall k :: 0 <= k < |ts| ==> IsQuoted(ts[k])
    ensures UnquoteAll(ts) == names
  {
    if names == [] then []
    else
      var ts := [Quote(names[0])] + QuoteAll(names[1..]);
      assert ts[1..] == QuoteAll(names[1..]);
      ts
  }

  /** The parts of `s` between occurrences of `sep` (shell `&&` chaining read back). */
  function Split<T(==)>(s: seq<T>, sep: T): (parts: seq<seq<T>>)
    ensures |parts| >= 1
    ensures forall k :: 0 <= k < |parts| ==> sep !in parts[k]
    decreases |s|
  {
    if sep !in s then [s]
    else
      var i := IndexOf(s, sep);
      [s[..i]] + Split(s[i + 1..], sep)
  }

  /** The parts joined with `sep` between consecutive parts. */
  function Join<T>(parts: seq<seq<T>>, sep: T): seq<T>
    requires |parts| >= 1
  {
    if |parts| == 1 then parts[0] else parts[0] + [sep] + Join(parts[1..], sep)
  }

  lemma {:induction false} SplitJoin<T>(parts: seq<seq<T>>, sep: T)
    requires |parts| >= 1
    requires forall k :: 0 <= k < |parts| ==> sep !in parts[k]
    ensures Split(Join(parts, sep), sep) == parts
  {
    if |parts| > 1 {
      var rest := Join(parts[1..], sep);
      IndexOfAfter(parts[0], sep, rest);
      var s := parts[0] + [sep] + rest;
      assert s[..|parts[0]|] == parts[0];
      assert s[|parts[0]| + 1..] == rest;
      SplitJoin(parts[1..], sep);
      assert parts == [parts[0]] + parts[1..];
    }
  }

  /** The tokens after the first occurrence of `marker`, if it occurs. */
  function ArgumentsAfter<T(==)>(s: seq<T>, marker: T): (r: Option<seq<T>>)
    ensures r.Some? <==> marker in s
    ensures r.Some? ==> |r.value| < |s| && r.value == s[|s| - |r.value|..]
  {
    if marker in s then Some(s[IndexOf(s, marker) + 1..]) else None
  }

  lemma ArgumentsAfterMarker<T>(prefix: seq<T>, marker: T, args: seq<T>)
    requires marker !in prefix
    ensures ArgumentsAfter(prefix + [marker] + args, marker) == Some(args)
  {
    IndexOfAfter(prefix, marker, args);
    assert (prefix + [marker] + args)[|prefix| + 1..] == args;
  }

  /** `a` is `b` with some elements dropped and the rest kept in order. */
  predicate IsSubsequence<T(==)>(a: seq<T>, b: seq<T>)
    decreases |b|
  {
    a == [] ||
    (b != [] && (IsSubsequence(a, b[1..]) || (a[0] == b[0] && IsSubsequence(a[1..], b[1..]))))
  }
}

=== FILE: yum.dfy ===
/** `PackageManagerYum` (kiwi/package_manager/yum.py:30-255): the request
    queue, the custom arguments and the processing calls that turn them
    into yum and rpm command lines.

    What the source learns from the system is passed in:
    - `found(path)`: whether `Path.which` finds an executable
      `yum-deprecated` on `path` (`None` is the process's own PATH);
    - `runs(cmd)`: whether `Command.run(cmd)` succeeds (the makecache and
      `rpm --rebuilddb` pre-steps, the `rpm -q` queries);
    - `moveToRoot`: `root_bind.move_to_root`.
    A processing call returns the command it hands to `Command.call`
    (before the `' '.join` and `bash -c`), or the error it raises. */
module PackageManager {
  import opened Tokens
  import opened CustomArgs
  import opened Commands

  class PackageManagerYum {
    var packageRequests: seq<string>
    var collectionRequests: seq<string>
    var excludeRequests: seq<string>
    var customArgs: seq<string>
    /** `yum_args` of the repository's runtime configuration. */
    const yumArgs: seq<string>
    const rootDir: string

    /** Collections are stored quoted, so each stays one shell word. */
    ghost predicate Valid()
      reads this
    {
      AllQuoted(collectionRequests)
    }

    ghost predicate Cleared()
      reads this
    {
      packageRequests == [] && collectionRequests == [] && excludeRequests == []
    }

    /** `post_init`: `None` custom arguments are modelled as the empty list. */
    constructor (rootDir: string, customArgs: seq<string>, yumArgs: seq<string>)
      ensures Valid() && Cleared()
      ensures this.rootDir == rootDir && this.customArgs == customArgs && this.yumArgs == yumArgs
    {
      this.rootDir := rootDir;
      this.customArgs := customArgs;
      this.yumArgs := yumArgs;
      packageRequests, collectionRequests, excludeRequests := [], [], [];
    }

    method RequestPackage(name: string)
      requires Valid()
      modifies this
      ensures Valid()
      ensures packageRequests == old(packageRequests) + [name]
      ensures collectionRequests == old(collectionRequests) && excludeRequests == old(excludeRequests)
      ensures customArgs == old(customArgs)
    {
      packageRequests := packageRequests + [name];
    }

    method RequestCollection(name: string)
      requires Valid()
      modifies this
      ensures Valid()
      ensures collectionRequests == old(collectionRequests) + [Quote(name)]
      ensures packageRequests == old(packageRequests) && excludeRequests == old(excludeRequests)
      ensures customArgs == old(customArgs)
    {
      collectionRequests := collectionRequests + ["\"" + name + "\""];
    }

    method RequestPackageExclusion(name: string)
      requires Valid()
      modifies this
      ensures Valid()
      ensures excludeRequests == old(excludeRequests) + [name]
      ensures packageRequests == old(packageRequests) && collectionRequests == old(collectionRequests)
      ensures customArgs == old(customArgs)
    {
      excludeRequests := excludeRequests + [name];
    }

    /** `cleanup_requests` of the base class: empty the three lists. */
    method CleanupRequests()
      modifies this
      ensures Valid() && Cleared()
      ensures customArgs == old(customArgs)
    {
      packageRequests, collectionRequests, excludeRequests := [], [], [];
    }

    /** Bootstrap install: refresh the cache, then install into the root
        with `--installroot`, chaining a groupinstall when collections were
        requested. A failing makecache raises before the queue is cleared. */
    method ProcessInstallRequestsBootstrap(found: Option<string> -> bool, runs: seq<string> -> bool)
      returns (r: Result<seq<string>>)
      requires Valid()
      modifies this
      ensures Valid() && customArgs == old(customArgs)
      ensures var yum := YumBinaryName(None, found);
        if runs(MakecacheCommand(yum, yumArgs)) then
          r == Ok(InstallCommand(BootstrapPrefix(yum, yumArgs, rootDir, customArgs),
                                 old(packageRequests), old(collectionRequests)))
          && Cleared()
        else
          r == Err(CommandFailed(MakecacheCommand(yum, yumArgs)))
          && packageRequests == old(packageRequests) && collectionRequests == old(collectionRequests)
          && excludeRequests == old(excludeRequests)
    {
      var yum := YumBinaryName(None, found);
      if !runs(MakecacheCommand(yum, yumArgs)) {
        return Err(CommandFailed(MakecacheCommand(yum, yumArgs)));
      }
      var command := BootstrapInstall(yum, yumArgs, rootDir, customArgs, packageRequests, collectionRequests);
      CleanupRequests();
      r := Ok(command);
    }

    /** Image install inside the root: append one `--exclude=` flag per
        exclusion to the custom arguments (for good), rebuild the rpm
        database, then install as in the bootstrap phase but through
        `chroot` with the root-relative yum arguments. */
    method ProcessInstallRequests(found: Option<string> -> bool, runs: seq<string> -> bool,
                                  moveToRoot: seq<string> -> seq<string>)
      returns (r: Result<seq<string>>)
      requires Valid()
      modifies this
      ensures Valid()
      ensures customArgs == old(customArgs) + ExcludeFlags(old(excludeRequests))
      ensures StrongAtMostOnce(old(customArgs)) ==> StrongAtMostOnce(customArgs)
      ensures var yum := YumBinaryName(Some(rootDir), found);
        if runs(RebuildDbCommand(rootDir)) then
          r == Ok(InstallCommand(ChrootPrefix(rootDir, yum, moveToRoot(yumArgs), customArgs),
                                 old(packageRequests), old(collectionRequests)))
          && Cleared()
        else
          r == Err(CommandFailed(RebuildDbCommand(rootDir)))
          && packageRequests == old(packageRequests) && collectionRequests == old(collectionRequests)
          && excludeRequests == old(excludeRequests)
    {
      var yum := YumBinaryName(Some(rootDir), found);
      var i := 0;
      while i < |excludeRequests|
        invariant 0 <= i <= |excludeRequests|
        invariant customArgs == old(customArgs) + ExcludeFlags(excludeRequests[..i])
        invariant packageRequests == old(packageRequests) && collectionRequests == old(collectionRequests)
        invariant excludeRequests == old(excludeRequests)
      {
        ExcludeFlagsAppend(excludeRequests[..i], [excludeRequests[i]]);
        assert excludeRequests[..i + 1] == excludeRequests[..i] + [excludeRequests[i]];
        customArgs := customArgs + [ExcludePrefix + excludeRequests[i]];
        i := i + 1;
      }
      assert excludeRequests[..i] == excludeRequests;
      ExclusionsAccumulate(old(customArgs), excludeRequests);
      if !runs(RebuildDbCommand(rootDir)) {
        return Err(CommandFailed(RebuildDbCommand(rootDir)));
      }
      var command := ChrootInstall(rootDir, yum, moveToRoot(yumArgs), customArgs,
                                   packageRequests, collectionRequests);
      CleanupRequests();
      r := Ok(command);
    }

    /** Removal: keep the requested packages `rpm -q` reports installed;
        raise when there are none (leaving the queue as it is), otherwise
        clear the queue and remove them all with the tolerant rpm flags. */
    method ProcessDeleteRequests(runs: seq<string> -> bool) returns (r: Result<seq<string>>)
      requires Valid()
      modifies this
      ensures Valid() && customArgs == old(customArgs)
      ensures var items := InstalledOf(rootDir, old(packageRequests), runs);
        if items == [] then
          r == Err(RequestError(NoneInstalled))
          && packageRequests == old(packageRequests) && collectionRequests == old(collectionRequests)
          && excludeRequests == old(excludeRequests)
        else
          r == Ok(DeleteCommand(rootDir, items)) && Cleared()
    {
      var items := DeleteItems(rootDir, packageRequests, runs);
      if items == [] {
        return Err(RequestError(NoneInstalled));
      }
      CleanupRequests();
      var command := ["chroot", rootDir, "rpm", "-e"] + DeleteOptions + items;
      assert command == DeleteCommand(rootDir, items);
      r := Ok(command);
    }

    /** `update`: upgrade everything inside the root; neither the queue nor
        the custom arguments are read from or written to beyond building
        the command. */
    method Update(found: Option<string> -> bool, moveToRoot: seq<string> -> seq<string>)
      returns (command: seq<string>)
      requires Valid()
      ensures Valid()
      ensures command == UpdateCommand(rootDir, YumBinaryName(Some(rootDir), found), moveToRoot(yumArgs), customArgs)
    {
      var yum := YumBinaryName(Some(rootDir), found);
      command := ["chroot", rootDir, yum] + moveToRoot(yumArgs) + customArgs + ["upgrade"];
    }

    method ProcessOnlyRequired()
      requires Valid()
      modifies this
      ensures Valid()
      ensures customArgs == OnlyRequired(old(customArgs))
      ensures StrongAtMostOnce(old(customArgs)) ==> StrongAtMostOnce(customArgs)
      ensures packageRequests == old(packageRequests) && collectionRequests == old(collectionRequests)
      ensures excludeRequests == old(excludeRequests)
    {
      if StrongRequires !in customArgs {
        customArgs := customArgs + [StrongRequires];
      }
    }

    method ProcessPlusRecommended()
      requires Valid()
      modifies this
      ensures Valid()
      ensures customArgs == PlusRecommended(old(customArgs))
      ensures StrongAtMostOnce(old(customArgs)) ==> StrongAtMostOnce(customArgs)
      ensures packageRequests == old(packageRequests) && collectionRequests == old(collectionRequests)
      ensures excludeRequests == old(excludeRequests)
    {
      if StrongRequires in customArgs {
        customArgs := RemoveFirst(customArgs, StrongRequires);
      }
    }
  }

  /** The install command `process_install_requests_bootstrap` assembles,
      token by token as the source does. */
  method BootstrapInstall(yum: string, yumArgs: seq<string>, rootDir: string, customArgs: seq<string>,
                          packages: seq<string>, collections: seq<string>)
    returns (command: seq<string>)
    ensures command == InstallCommand(BootstrapPrefix(yum, yumArgs, rootDir, customArgs), packages, collections)
  {
    ghost var prefix := BootstrapPrefix(yum, yumArgs, rootDir, customArgs);
    command := [yum] + yumArgs + ["--installroot", rootDir] + customArgs + ["install"] + packages;
    assert command == prefix + ["install"] + packages;
    if collections != [] {
      command := command + ["&&", yum] + yumArgs + ["--installroot", rootDir] + customArgs
                         + ["groupinstall"] + collections;
      assert command == prefix + ["install"] + packages
                        + ([Chain] + prefix + ["groupinstall"] + collections);
    }
  }

  /** The install command `process_install_requests` assembles inside the
      root, token by token as the source does. */
  method ChrootInstall(rootDir: string, yum: string, chrootYumArgs: seq<string>, customArgs: seq<string>,
                       packages: seq<string>, collections: seq<string>)
    returns (command: seq<string>)
    ensures command == InstallCommand(ChrootPrefix(rootDir, yum, chrootYumArgs, customArgs), packages, collections)
  {
    ghost var prefix := ChrootPrefix(rootDir, yum, chrootYumArgs, customArgs);
    command := ["chroot", rootDir, yum] + chrootYumArgs + customArgs + ["install"] + packages;
    assert command == prefix + ["install"] + packages;
    if collections != [] {
      command := command + ["&&", "chroot", rootDir, yum] + chrootYumArgs + customArgs
                         + ["groupinstall"] + collections;
      assert command == prefix + ["install"] + packages
                        + ([Chain] + prefix + ["groupinstall"] + collections);
    }
  }

  /** Every exclusion processed by an image install reaches the yum command
      line, in the custom arguments of the install step. */
  lemma ExclusionsReachChrootCommand(rootDir: string, yum: string, chrootYumArgs: seq<string>,
                                     customArgs: seq<string>, excludes: seq<string>,
                                     packages: seq<string>, collections: seq<string>, k: nat)
    requires k < |excludes|
    ensures ExcludePrefix + excludes[k] in
              InstallCommand(ChrootPrefix(rootDir, yum, chrootYumArgs, customArgs + ExcludeFlags(excludes)),
                             packages, collections)
  {
    var flag := ExcludePrefix + excludes[k];
    InMiddle(customArgs, ExcludeFlags(excludes), [], k);
    assert customArgs + ExcludeFlags(excludes) + [] == customArgs + ExcludeFlags(excludes);
    var args := customArgs + ExcludeFlags(excludes);
    var prefix := ChrootPrefix(rootDir, yum, chrootYumArgs, args);
    var rest := ["install"] + packages
                + (if collections == [] then [] else [Chain] + prefix + ["groupinstall"] + collections);
    InMiddle(["chroot", rootDir, yum] + chrootYumArgs, args, rest, |customArgs| + k);
  }

  /** The bootstrap command a valid instance returns reads back at `&&` as
      its install and groupinstall steps: the quoting `Valid` keeps is what
      lets no collection be taken for a chain operator. */
  method BootstrapCommandSplitsAtChain(m: PackageManagerYum, found: Option<string> -> bool,
                                       runs: seq<string> -> bool)
    returns (r: Result<seq<string>>)
    requires m.Valid()
    requires Chain !in m.packageRequests && Chain !in m.yumArgs && Chain !in m.customArgs && m.rootDir != Chain
    modifies m
    ensures r.Ok? ==>
              Split(r.value, Chain) ==
                InstallSteps(BootstrapPrefix(YumBinaryName(None, found), m.yumArgs, m.rootDir, m.customArgs),
                             old(m.packageRequests), old(m.collectionRequests))
    ensures r.Ok? ==> (Chain in r.value <==> old(m.collectionRequests) != [])
  {
    ghost var packages := m.packageRequests;
    ghost var collections := m.collectionRequests;
    r := m.ProcessInstallRequestsBootstrap(found, runs);
    if r.Ok? {
      InstallCommandSteps(BootstrapPrefix(YumBinaryName(None, found), m.yumArgs, m.rootDir, m.customArgs),
                          packages, collections);
    }
  }

  /** An exclusion processed by one image install is still in force for the
      next, unrelated one on the same instance. */
  method ExclusionOutlivesTheQueue(m: PackageManagerYum, found: Option<string> -> bool,
                                   moveToRoot: seq<string> -> seq<string>)
    requires m.Valid() && m.Cleared()
    modifies m
  {
    var allOk := (cmd: seq<string>) => true;
    m.RequestPackageExclusion("pkgX");
    m.RequestPackage("a");
    var first := m.ProcessInstallRequests(found, allOk, moveToRoot);
    assert ExcludePrefix + "pkgX" in m.customArgs;
    m.RequestPackage("b");
    var second := m.ProcessInstallRequests(found, allOk, moveToRoot);
    assert ExcludePrefix + "pkgX" in m.customArgs;
    assert second.Ok? && ExcludePrefix + "pkgX" in second.value;
  }
}
